=== FILE: README.md ===
# Penn Course Cart — a Dafny model of the cart, reorder and checkout logic

The application lets a student search a course catalog, keep up to seven
courses in a cart, reorder the cart by dragging on the checkout page, and see
each course's ratings banded into three colour tiers. This project lifts the
decision and sequence logic out of the React components into pure Dafny
functions over immutable records, and proves what that logic guarantees.

Modules, following the source files:

- `CourseModel` (`course.dfy`): the `Course` record (department, number,
  title, description, prerequisites as free text or a list, cross-listings,
  three optional ratings), its key (department, number) and its rendered
  identifier `dept-number`. The identifier is proved injective.
- `CoursesPage` (`courses.dfy`, `src/components/Courses.tsx`): the search
  filter, `in_cart`, `add_to_cart` (capacity 7), `remove_from_cart` and the
  add/remove button.
- `Checkout` (`checkout.dfy`, `src/components/Checkout.tsx`): `findIndex` on
  identifiers, the midpoint move decision, the splice-remove/splice-insert
  move, autoscroll, the drag gesture (start, over, drop), `getColor`, and the
  `cart` query parse with its redirect test.
- `AppState` (`app.dfy`, `src/App.tsx`): the level filter and `flip_filter`.
- `GetCourse` (`get_course.dfy`, `src/services/getCourse.tsx`): the rating
  merge of `getAll`, with the HTTP request passed in as a function from
  identifier to outcome. As written, an answer that lacks a rating makes
  `toFixed` throw, and `Promise.all` then fails the whole merge (see
  Findings). A tolerant per-course merge is defined beside it and proved to
  agree with it whenever the code as written succeeds.
- `Nav` (`nav.dfy`, `src/components/Nav.tsx`): `cartToQuery` and the cart
  badge.
- Helpers: `Options`, `Seqs` (`filter`, `splice`, subsequence) and `Strings`
  (`includes`, number rendering, `join`, `split`, and the `'+'`-to-space step
  that `URLSearchParams` applies when it decodes a query value, as the
  WHATWG URL Standard's application/x-www-form-urlencoded parser prescribes).

Pointer and element geometry (pointer y, the list's top and bottom, the
target item's y and height, `scrollTop`) are parameters of type `real`.
Ratings are `real` values.

The application implements no sorting, no level-bucket filtering, no
"unavailable" flag and no rating averages. `App.tsx` declares an optional
`unavailable` field and passes `numberFilter` and `cartView` to `Courses`, but
nothing reads them. `remove_from_cart` drops every entry with the
key, not just one. The checkout link cannot rebuild the cart from its query
(see Findings).

## Model

| member | source | states |
|---|---|---|
| Strings.IncludesIsContains | src/components/Courses.tsx:39-43 | The left-to-right `includes` search holds exactly when the text occurs at some position of the string |
| Strings.IncludesEmpty | src/components/Courses.tsx:39-43 | Every string includes the empty string |
| Strings.DecimalRoundTrip | src/services/getCourse.tsx:37 | Reading back the decimal rendering of a course number gives the number |
| Strings.JoinSplit | src/components/Checkout.tsx:53 | Joining the `split` pieces with the separator gives back the split string |
| Strings.SplitJoin | src/components/Nav.tsx:22 | Splitting a join of one or more separator-free pieces gives back the pieces |
| Strings.SplitPiecesAreFree | src/components/Checkout.tsx:53 | No piece of a split contains the separator |
| Strings.FormDecodeJoin | src/components/Checkout.tsx:51 | Decoding a `'+'`-join of `'+'`-free pieces gives the same pieces joined by spaces |
| Seqs.Filter | src/components/Courses.tsx:74-76 | `filter` keeps exactly the elements satisfying the predicate and is no longer than its input |
| Seqs.FilterIsSubsequence | src/components/Courses.tsx:74-76 | `filter` keeps the original order |
| Seqs.FilterMultiplicity | src/components/Courses.tsx:74-76 | `filter` keeps every copy of a satisfying element and no copy of any other |
| Seqs.RemoveAt | src/components/Checkout.tsx:130 | `splice(i, 1)` removes exactly the element at i: earlier elements stay, later ones shift down, the multiset loses that one element |
| Seqs.InsertAt | src/components/Checkout.tsx:131 | `splice(i, 0, x)` puts x at i, keeps earlier elements, shifts later ones up, and adds x to the multiset |
| CourseModel.CourseId | src/services/getCourse.tsx:37 | The identifier is longer than the department, because a hyphen and at least one digit follow it |
| CourseModel.CourseIdParses | src/components/Checkout.tsx:186-189 | The identifier is the department, then `'-'`, then a digit string whose decimal value is the course number |
| CourseModel.CourseIdInjective | src/components/Checkout.tsx:186-189 | Two courses with the same rendered identifier `dept-number` have the same key, even when a department contains `'-'` |
| CourseModel.NoDuplicateKeysDistinctIds | src/components/Checkout.tsx:108-118 | A cart without duplicate keys has pairwise distinct identifiers, so `findIndex` by identifier is unambiguous |
| CoursesPage.Search | src/components/Courses.tsx:38-44 | The shown courses are exactly the catalog courses whose title, description or department contains the search text at some position (case-sensitive), in catalog order |
| CoursesPage.SearchEmpty | src/components/Courses.tsx:39-43 | An empty search text shows the whole catalog |
| CoursesPage.SearchMultiplicity | src/components/Courses.tsx:39-43 | A matching course appears as often as in the catalog, a non-matching one not at all |
| CoursesPage.InCart | src/components/Courses.tsx:46-55 | `in_cart` holds iff the course's key occurs exactly once among the cart's keys, so two copies of a key read as not in the cart |
| CoursesPage.InCartIsMembership | src/components/Courses.tsx:46-55 | In a cart without duplicate keys, `in_cart` holds iff the key is in the cart |
| CoursesPage.AddToCart | src/components/Courses.tsx:57-67 | With exactly seven courses the cart is unchanged and the limit notice is raised; otherwise the course is appended and the old cart is an unchanged prefix |
| CoursesPage.AddAllWithinCapacity | src/components/Courses.tsx:62-66 | From a cart of at most seven courses, any sequence of adds leaves at most seven |
| CoursesPage.RemoveFromCart | src/components/Courses.tsx:69-80 | The result has no entry with the course's key, keeps every copy of every other entry (the same multiplicity as in the cart), and keeps their order |
| CoursesPage.RemoveShrinks | src/components/Courses.tsx:74-76 | Removing a course whose key is in the cart makes the cart strictly shorter |
| CoursesPage.RemoveAbsent | src/components/Courses.tsx:74-78 | Removing a course whose key is not in the cart changes nothing |
| CoursesPage.RemoveIdempotent | src/components/Courses.tsx:74-78 | Removing twice is the same as removing once |
| CoursesPage.AddThenRemove | src/components/Courses.tsx:57-80 | Adding an absent course below capacity and then removing it restores the original cart |
| CoursesPage.RemovePreservesNoDuplicates | src/components/Courses.tsx:74-76 | Removal keeps a cart free of duplicate keys |
| CoursesPage.PressButton | src/components/Courses.tsx:115-127 | When `in_cart` holds, the button removes: every entry with the key leaves the cart, every other entry stays with its multiplicity and order, and the cart shrinks. Otherwise it adds: the cart is unchanged exactly when it already holds seven courses, and otherwise gains the course at the end |
| CoursesPage.CartRecord | src/components/Courses.tsx:106-124 | The record a button passes on keeps the key, identifier, title and description of the catalog entry and has no prerequisites, cross-listings or ratings |
| CoursesPage.PressButtonOnRecord | src/components/Courses.tsx:115-124 | The four-field copy tests and removes exactly as the catalog entry would, and an add below capacity appends the copy |
| CoursesPage.PressButtonKeepsCartValid | src/components/Courses.tsx:115-127 | With add offered only when `!in_cart` and remove only when `in_cart`, a cart within capacity and without duplicate keys stays so; an accepted add makes `in_cart` true, a remove makes it false, an add at capacity changes nothing |
| Checkout.FindIndex | src/components/Checkout.tsx:108-118 | `findIndex` gives -1 iff no entry has the identifier, otherwise the first entry that has it |
| Checkout.FindIndexDistinct | src/components/Checkout.tsx:108-118 | With distinct identifiers, looking up an entry's identifier finds that entry's position |
| Checkout.Decide | src/components/Checkout.tsx:120-124 | No move iff dragged equals target, the pointer is exactly on the midpoint, or the pointer is on the wrong side of it; a move up only when dragged is below the target, a move down only when above |
| Checkout.Move | src/components/Checkout.tsx:128-132 | The move keeps the length and the multiset, puts the dragged course at the target index, and leaves the other courses in their relative order |
| Checkout.MoveElements | src/components/Checkout.tsx:129-131 | Position by position: entries between the two indices shift one step toward the old position, the rest stay |
| Checkout.MoveThereAndBack | src/components/Checkout.tsx:129-131 | Moving from d to t and then from t back to d restores the cart exactly |
| Checkout.MoveKeepsDistinctIds | src/components/Checkout.tsx:129-131 | A move keeps identifiers distinct |
| Checkout.MovedPositions | src/components/Checkout.tsx:129-131 | After a move the dragged course is found at the target index and the target course one step toward the dragged course's old position |
| Checkout.Autoscroll | src/components/Checkout.tsx:99-106 | The offset decreases iff the pointer is within 60 of the list top, increases iff it is not but is within 60 of the bottom, and changes by exactly 10 or not at all |
| Checkout.Positions | src/components/Checkout.tsx:108-118 | The dragged and target indices are in range and are the first positions holding the dragged identifier and the target's `data-course-id`, as `findIndex` returns |
| Checkout.MoveChanges | src/components/Checkout.tsx:128-132 | Splicing a course to an index holding a different identifier changes the cart; with distinct identifiers every move to a different index does |
| Checkout.Reorder | src/components/Checkout.tsx:108-134 | The reorder is a permutation; without the list or a target item it changes nothing; it changes the cart only when the midpoint rule decides to move, and then the dragged course sits at the target's index; a decision to move always yields the splice move and a changed cart |
| Checkout.HandleDragOver | src/components/Checkout.tsx:92-136 | Without the list element nothing changes; otherwise the scroll offset is the autoscroll outcome and the cart is the reorder outcome, so the cart is permuted and the offset moves by at most 10 |
| Checkout.ScrollIndependentOfMove | src/components/Checkout.tsx:98-134 | The new scroll offset does not depend on the cart, the dragged course or the target item |
| Checkout.MoveIndependentOfScroll | src/components/Checkout.tsx:98-134 | For the same measured target rectangle and pointer, the new cart order does not depend on the scroll offset or on where the list's edges are |
| Checkout.NoMoveOnTargetOrMidpoint | src/components/Checkout.tsx:120-128 | Dragging over the dragged course itself, or with the pointer exactly on the midpoint, leaves the cart unchanged |
| Checkout.ReorderStable | src/components/Checkout.tsx:108-133 | With distinct identifiers, reordering twice with the same event reorders once |
| Checkout.ReprocessingIsStable | src/components/Checkout.tsx:92-136 | Delivering the same drag-over data again, with the same measured target rectangle, moves no course a second time |
| Checkout.Remeasured | src/components/Checkout.tsx:102-121 | The next event with the pointer held still sees the target rectangle moved opposite to the scroll, so its midpoint shifts by the old offset minus the new one; without a scroll it is the same event |
| Checkout.RepeatedDragOverIsStable | src/components/Checkout.tsx:92-136 | With the pointer held still outside both edge margins (so the first event did not scroll), the next event, measured afresh, moves no course |
| Checkout.RemeasuredDragOverCanUndo | src/components/Checkout.tsx:102-124 | With the pointer 30 below the list top, dragging the first of two courses moves it down and scrolls up by 10; the next event sees the target's midpoint 10 lower and moves the course back up |
| Checkout.Step | src/components/Checkout.tsx:81-140 | Drag start records the identifier and changes no order; drag over keeps the identifier and applies `handleDragOver` (autoscroll and midpoint move) to the view; drop changes nothing |
| Checkout.GetColor | src/components/Checkout.tsx:144-154 | Mid iff 2.2 <= v < 3.3; high iff v >= 3.3 when high is good, v < 2.2 otherwise; low in the remaining cases |
| Checkout.GetColorMirror | src/components/Checkout.tsx:144-154 | Flipping the direction swaps low and high and keeps mid |
| Checkout.GetColorMonotone | src/components/Checkout.tsx:144-154 | The tier rises with the value when high is good and falls with it otherwise |
| Checkout.ParseCartQuery | src/components/Checkout.tsx:51-53 | A missing or empty parameter gives no pieces; otherwise the pieces are `';'`-free and join back with `';'` to the parameter |
| Checkout.ShouldRedirect | src/components/Checkout.tsx:51-58 | The page redirects iff the `cart` parameter is present and non-empty and the cart is empty |
| AppState.InitialLevelFilter | src/App.tsx:28 | The filter starts as three unchecked boxes |
| AppState.Slot | src/App.tsx:30-38 | Indices 0 and 1 select their own box; every other index selects box 2 |
| AppState.FlipFilter | src/App.tsx:30-38 | The selected box is negated, the other two are unchanged, and there are still three boxes |
| AppState.FlipTwice | src/App.tsx:30-38 | Flipping the same index twice restores the filter |
| AppState.FlipsCommute | src/App.tsx:30-38 | Flips at two indices commute |
| GetCourse.GetCourseData | src/services/getCourse.tsx:19-29 | A rejected request reads as no data; an answered request yields exactly its body |
| GetCourse.Lookup | src/services/getCourse.tsx:37-38 | The data for a course is exactly the body of the answer to the request made under its `dept-number` identifier, and nothing when that request is rejected |
| GetCourse.MergeOne | src/services/getCourse.tsx:49-57 | The step throws iff data came back without all three ratings; with no data the course is returned unchanged; otherwise every non-rating field is copied and exactly the three ratings are overwritten |
| GetCourse.GetAll | src/services/getCourse.tsx:33-61 | The merge fails as a whole iff some course's step throws; otherwise same length, keys and identifiers in the same order, each record keeps its non-rating fields, is unchanged when its lookup gives nothing, and carries the looked-up ratings otherwise |
| GetCourse.GetAllFailsOnMissingRating | src/services/getCourse.tsx:36-58 | One answered course lacking a rating makes the whole merge fail, losing every other course's ratings |
| GetCourse.GetAllFailsExample | src/services/getCourse.tsx:49-53 | A cart of two courses whose second answer has no course quality yields no merged cart at all |
| GetCourse.GetAllAllRejected | src/services/getCourse.tsx:19-58 | If every request is rejected, the merge succeeds and returns the cart unchanged |
| GetCourse.MergeOneTolerant | src/services/getCourse.tsx:49-57 | The corrected step: each rating the body carries overwrites the course's, each missing one keeps the course's own, and the non-rating fields and identifier stay |
| GetCourse.GetAllTolerant | src/services/getCourse.tsx:33-61 | The corrected merge never fails: same length, keys and identifiers, non-rating fields kept, unchanged courses where the lookup gives nothing, the looked-up ratings where the answer is complete |
| GetCourse.GetAllTolerantAgrees | src/services/getCourse.tsx:33-61 | Whenever the merge as written succeeds, the corrected merge gives the same cart |
| GetCourse.GetAllIsLocal | src/services/getCourse.tsx:36-58 | In the corrected merge each record depends only on its own course and the answer for its own identifier |
| GetCourse.GetAllIdempotent | src/services/getCourse.tsx:36-58 | Running the corrected merge again with the same answers changes nothing more |
| Nav.CartToQuery | src/components/Nav.tsx:21-25 | An empty cart gives "", one course gives its identifier, and splitting on `'+'` recovers the identifiers when none contains `'+'` |
| Nav.CheckoutParam | src/components/Checkout.tsx:51 | The page reads the value back with the same length, each `'+'` turned into a space, and every other character kept in place |
| Nav.CartBadge | src/components/Nav.tsx:34 | The badge is shown iff the cart is non-empty, and then shows the cart length |
| Nav.CartBadgeFollowsButton | src/components/Nav.tsx:34 | After an accepted add the badge shows one more course; after a remove it shows fewer, or disappears |
| Nav.QueryDelimiterMismatch | src/components/Nav.tsx:19-22 | For two or more identifiers free of `'+'` and `';'`, the checkout page reads one piece, the identifiers joined by spaces, not one per course |
| Nav.QueryDelimiterMismatchExample | src/components/Nav.tsx:19-22 | With the identifiers CIS-120 and CIS-121 in the link, the checkout page would read the single piece "CIS-120 CIS-121" (as written the link carries empty values; see `Nav.CartLinkAsWritten`) |
| Nav.RecordIds | src/components/Nav.tsx:22 | The `course.id` values of the records the course list puts in the cart: one per course, each the empty string |
| Nav.CartLinkAsWritten | src/components/Nav.tsx:19-22 | As written, a two-course cart links to `?cart=+` and the checkout page reads the single piece `" "` |
| Nav.CartLinkLosesCourses | src/components/Nav.tsx:19-22 | For any cart of two or more courses the checkout page reads exactly one piece, both from the link as written (empty `course.id` values) and from a link of `dept-number` identifiers whose departments contain neither `'+'` nor `';'` |
| Nav.CartToQueryIntended | src/components/Nav.tsx:19-20 | The intended query joins with `';'`: empty cart gives "", one course gives its identifier |
| Nav.IntendedQueryRoundTrip | src/components/Nav.tsx:19-20 | With `';'` as delimiter the checkout page reads back exactly the cart's identifiers, in order |
| Nav.RedirectFromLink | src/components/Checkout.tsx:51-58 | Opening a link built on one cart while holding another: as written, the page redirects iff the linked cart had at least two courses and the current cart is empty; with the intended link, iff the linked cart was non-empty and the current cart is empty |
| Nav.LinkNeverRedirects | src/components/Nav.tsx:33 | Following the checkout link from the navigation bar, as written or with either delimiter, never triggers the empty-cart redirect |

## Left out

- `src/components/Cart.tsx`, and the rendering of `Checkout.tsx` (the empty-cart page, "Loading…", the rating badges and the prerequisite and cross-listing lines): presentation only.
- React state, effects and refs, routing (`navigate`), and DOM lookups (`getBoundingClientRect`, `closest`, `data-course-id`): the values they produce are parameters.
- The `setTimeout` clearing of the "Cart limit exceeded" and "Course Selection Confirmed!" notices, and `handleConfirm`: timers and UI only.
- axios, `Promise.all` concurrency and `console.log`: the request is a function parameter and the merge is computed per course.
- The page after a failed merge: when `getAll` rejects, the `.then` at `src/components/Checkout.tsx:63-68` never runs, so the page stays on "Loading…". Rendering is not modelled; `GetCourse.GetAll` returns no cart.
- `toFixed(2)` and the later string-to-number coercion in `getColor`: ratings are copied as exact `real` values.
- Checkout.HandleDragOver: requires both the dragged and the target identifier to be in the cart. With `findIndex` returning -1 (no drag started, so the dragged identifier is `""`), JavaScript's negative `splice` index would move the last course instead. That quirk is not modelled.
- Checkout.Reorder: has the same requirement as HandleDragOver, for the same reason.
- Checkout.ReprocessingIsStable: holds for drag-over data delivered again unchanged. In the browser each event scrolls first and then measures the target, so with the pointer held within 60 of a list edge the next event sees the target shifted by 10 and can undo the move (`Checkout.RemeasuredDragOverCanUndo`). Stability of the next event is proved only outside the edge margins (`Checkout.RepeatedDragOverIsStable`).
- The stale display list: the page renders `cartList` but reorders `props.cart`. The model reorders the cart sequence.
- The browser's clamping of `scrollTop` to the scrollable range.
- Percent-decoding and the special meaning of `&`, `#` and `=` in a query: only the `'+'`-to-space step of form decoding is modelled.
- Nav.CartToQuery: takes the identifiers as given. `Nav.tsx` reads a `course.id` field, but the cart is filled with records built from `dept`, `number`, `title` and `description` only (`Courses.tsx:106`, `:118`, `:124`), which have no `id`. `Nav.RecordIds` and `Nav.CartLinkAsWritten` model that field as written (every value empty); the other link lemmas use the rendered `dept-number` identifier, the value the comment at `Nav.tsx:20` describes.
- Checkout.MoveIndependentOfScroll: holds for the same measured target rectangle. The code measures the rectangle after the autoscroll has moved the list, so in the browser the midpoint has shifted by the scroll step; the model takes the measured rectangle as a parameter of the event.
- CoursesPage.PressButton: appends the course it is given. The course list passes a four-field copy of the catalog entry (`dept`, `number`, `title`, `description`; `Courses.tsx:106`, `:124`), so a cart entry has no prerequisites, cross-listings or ratings until the checkout merge. `CoursesPage.CartRecord` builds that copy and `CoursesPage.PressButtonOnRecord` relates the two; the other cart lemmas hold for any course passed in.
- AppState.FlipFilter: requires a three-element filter, the only shape the application ever builds. The index is an integer; a fractional index, which would also select box 2, is not modelled.
- Course numbers are non-negative integers; a fractional or negative `number` is not modelled, nor JavaScript's exponent notation for numbers of 10^21 and above.
- Sorting, the level-bucket filter, the "unavailable" flag and rating averages: the application does not implement them.

## Findings

| source | as written | input that shows it | evidently intended | confidence | as-written member | corrected member |
|---|---|---|---|---|---|---|
| src/components/Nav.tsx:19-22 | `cartToQuery` joins the `course.id` values with `'+'`, which form decoding then turns into spaces; the cart records have no `id`, so every value is empty | any two-course cart: the link carries `?cart=+`, and the checkout page's `split(';')` yields the one piece `" "`. Even with `dept-number` identifiers (CIS-120, CIS-121) it would yield the one piece `"CIS-120 CIS-121"` | join the `dept-number` identifiers with `';'`, as the comment says and as the checkout page splits, so the page reads back one identifier per course | high (not executed) | Nav.CartLinkAsWritten | Nav.IntendedQueryRoundTrip |
| src/services/getCourse.tsx:49-58 | each answered course's three ratings are formatted with `toFixed(2)`, which throws on a missing (`null` or absent) rating; the throw rejects `Promise.all` | a cart of two courses whose second answer has `course_quality` missing: no course gets ratings and the merge rejects | merge each course on its own, keeping the ratings that are present, so one incomplete answer cannot cost the rest of the cart its ratings | high (not executed) | GetCourse.GetAllFailsOnMissingRating | GetCourse.GetAllTolerant |

=== FILE: app.dfy ===
/** Application-level state: the three course-level filter checkboxes. */
module AppState {

  /** The level checkboxes start all unchecked: Intro (100-199), Regular (200-299), Upper Level (300+). */
  function InitialLevelFilter(): (f: seq<bool>)
    ensures |f| == 3
    ensures forall k :: 0 <= k < |f| ==> !f[k]
  {
    [false, false, false]
  }

  /** The checkbox an index toggles: 0 and 1 name themselves, every other index names the last one. */
  function Slot(index: int): (k: nat)
    ensures k < 3
    ensures 0 <= index < 3 ==> k == index
    ensures !(0 <= index < 3) ==> k == 2
  {
    if index == 0 then 0 else if index == 1 then 1 else 2
  }

  /** `flip_filter`: negate one checkbox and rebuild the three-element state. */
  function FlipFilter(f: seq<bool>, index: int): (r: seq<bool>)
    requires |f| == 3
    ensures |r| == 3
    ensures r[Slot(index)] == !f[Slot(index)]
    ensures forall k :: 0 <= k < 3 && k != Slot(index) ==> r[k] == f[k]
  {
    if index == 0 then [!f[0], f[1], f[2]]
    else if index == 1 then [f[0], !f[1], f[2]]
    else [f[0], f[1], !f[2]]
  }

  /** Toggling the same checkbox twice restores the filter. */
  lemma FlipTwice(f: seq<bool>, index: int)
    requires |f| == 3
    ensures FlipFilter(FlipFilter(f, index), index) == f
  {
  }

  /** Toggles commute: the order of two clicks does not matter. */
  lemma FlipsCommute(f: seq<bool>, i: int, j: int)
    requires |f| == 3
    ensures FlipFilter(FlipFilter(f, i), j) == FlipFilter(FlipFilter(f, j), i)
  {
  }
}

=== FILE: checkout.dfy ===
/**
 * The checkout page: reordering the cart by dragging (the midpoint rule, the
 * splice-based move and autoscroll), the three-tier rating colour, and the
 * `cart` query parameter read on first render.
 */
module Checkout {
  import opened Options
  import opened CourseModel
  import opened Seqs
  import Strings

  /* ---------- locating list items ---------- */

  /** `findIndex` on the rendered identifier: the first position holding `id`, or -1. */
  function FindIndex(cart: seq<Course>, id: string): (r: int)
    ensures -1 <= r < |cart|
    ensures r == -1 <==> forall k :: 0 <= k < |cart| ==> CourseId(cart[k]) != id
    ensures r >= 0 ==> CourseId(cart[r]) == id && forall k :: 0 <= k < r ==> CourseId(cart[k]) != id
    decreases |cart|
  {
    if |cart| == 0 then -1
    else if CourseId(cart[0]) == id then 0
    else
      var r := FindIndex(cart[1..], id);
      if r == -1 then -1 else r + 1
  }

  /** With distinct identifiers, looking up an entry's identifier finds that entry. */
  lemma FindIndexDistinct(cart: seq<Course>, k: nat)
    requires DistinctIds(cart)
    requires k < |cart|
    ensures FindIndex(cart, CourseId(cart[k])) == k
  {
    forall j | 0 <= j < k
      ensures CourseId(cart[j]) != CourseId(cart[k])
    {
    }
  }

  /* ---------- the move ---------- */

  /** The midpoint rule: move up only when the pointer is above the target's middle, down only when below. */
  datatype Decision = MoveUp | MoveDown | Stay

  function Decide(dragged: nat, target: nat, pointerY: real, midpoint: real): (d: Decision)
    ensures d == Stay <==> (dragged == target || pointerY == midpoint
      || (dragged > target && pointerY > midpoint) || (dragged < target && pointerY < midpoint))
    ensures d == MoveUp ==> dragged > target
    ensures d == MoveDown ==> dragged < target
  {
    if dragged > target && pointerY < midpoint then MoveUp
    else if dragged < target && pointerY > midpoint then MoveDown
    else Stay
  }

  /** `splice(from, 1)` followed by `splice(to, 0, item)`: the dragged entry lands at `to`. */
  function Move(cart: seq<Course>, from: nat, to: nat): (r: seq<Course>)
    requires from < |cart| && to < |cart|
    ensures |r| == |cart|
    ensures r[to] == cart[from]
    ensures RemoveAt(r, to) == RemoveAt(cart, from)
    ensures multiset(r) == multiset(cart)
  {
    InsertAt(RemoveAt(cart, from), to, cart[from])
  }

  /** Where the entry now at position `j` came from, after a move from `from` to `to`. */
  function Source(from: nat, to: nat, j: nat): nat {
    if j == to then from
    else if from <= to then (if from <= j < to then j + 1 else j)
    else (if to < j <= from then j - 1 else j)
  }

  /** Entry by entry: positions between the two indices shift by one toward `from`, the rest stay. */
  lemma MoveElements(cart: seq<Course>, from: nat, to: nat)
    requires from < |cart| && to < |cart|
    ensures forall j :: 0 <= j < |cart| ==> Source(from, to, j) < |cart| && Move(cart, from, to)[j] == cart[Source(from, to, j)]
  {
  }

  /** Moving an entry from `from` to `to` and then from `to` back to `from` restores the cart exactly. */
  lemma MoveThereAndBack(cart: seq<Course>, from: nat, to: nat)
    requires from < |cart| && to < |cart|
    ensures Move(Move(cart, from, to), to, from) == cart
  {
    var m := Move(cart, from, to);
    InsertRemove(cart, from);
    assert Move(m, to, from) == InsertAt(RemoveAt(cart, from), from, cart[from]);
  }

  /** A move keeps identifiers distinct. */
  lemma MoveKeepsDistinctIds(cart: seq<Course>, from: nat, to: nat)
    requires from < |cart| && to < |cart|
    requires DistinctIds(cart)
    ensures DistinctIds(Move(cart, from, to))
  {
    MoveElements(cart, from, to);
    var r := Move(cart, from, to);
    forall i, j | 0 <= i < j < |r|
      ensures CourseId(r[i]) != CourseId(r[j])
    {
      var si, sj := Source(from, to, i), Source(from, to, j);
      assert si != sj;
      if si < sj {
        assert CourseId(cart[si]) != CourseId(cart[sj]);
      } else {
        assert CourseId(cart[sj]) != CourseId(cart[si]);
      }
    }
  }

  /* ---------- pointer events ---------- */

  /** Pixels from the list's top or bottom edge within which dragging scrolls the list. */
  const ScrollMargin: real := 60.0
  /** Pixels scrolled per drag-over event. */
  const ScrollStep: real := 10.0

  /** Vertical bounds of the rendered course list. */
  datatype ListBounds = ListBounds(top: real, bottom: real)

  /** The list item under the pointer: its `data-course-id` and its vertical extent. */
  datatype TargetItem = TargetItem(id: string, y: real, height: real)

  /** A drag-over event: pointer height, the list element if mounted, the item under the pointer if any. */
  datatype DragOverEvent = DragOverEvent(clientY: real, list: Option<ListBounds>, target: Option<TargetItem>)

  /** What a drag-over can change: the cart order and the list's scroll offset. */
  datatype View = View(cart: seq<Course>, scrollTop: real)

  function Midpoint(item: TargetItem): real {
    item.y + item.height / 2.0
  }

  /** The scroll offset after one drag-over event: up near the top edge, otherwise down near the bottom edge. */
  function Autoscroll(clientY: real, list: ListBounds, scrollTop: real): (r: real)
    ensures r < scrollTop <==> clientY < list.top + ScrollMargin
    ensures r > scrollTop <==> clientY >= list.top + ScrollMargin && clientY > list.bottom - ScrollMargin
    ensures r == scrollTop - ScrollStep || r == scrollTop || r == scrollTop + ScrollStep
  {
    if clientY < list.top + ScrollMargin then scrollTop - ScrollStep
    else if clientY > list.bottom - ScrollMargin then scrollTop + ScrollStep
    else scrollTop
  }

  /**
   * The event can be handled without the `findIndex` result -1: when the list
   * and a target item are present, both the dragged and the target identifier
   * are in the cart.
   */
  predicate CanHandle(cart: seq<Course>, draggedId: string, ev: DragOverEvent) {
    ev.list.Some? && ev.target.Some? ==>
      FindIndex(cart, draggedId) >= 0 && FindIndex(cart, ev.target.value.id) >= 0
  }

  /** The dragged and target positions of an event that has a list and a target item. */
  function Positions(cart: seq<Course>, draggedId: string, ev: DragOverEvent): (p: (nat, nat))
    requires ev.list.Some? && ev.target.Some? && CanHandle(cart, draggedId, ev)
    ensures p.0 < |cart| && p.1 < |cart|
    ensures CourseId(cart[p.0]) == draggedId && CourseId(cart[p.1]) == ev.target.value.id
    ensures forall k :: 0 <= k < p.0 ==> CourseId(cart[k]) != draggedId
    ensures forall k :: 0 <= k < p.1 ==> CourseId(cart[k]) != ev.target.value.id
  {
    (FindIndex(cart, draggedId), FindIndex(cart, ev.target.value.id))
  }

  /** The decision the midpoint rule takes for an event that has a list and a target item. */
  function EventDecision(cart: seq<Course>, draggedId: string, ev: DragOverEvent): Decision
    requires ev.list.Some? && ev.target.Some? && CanHandle(cart, draggedId, ev)
  {
    var (d, t) := Positions(cart, draggedId, ev);
    Decide(d, t, ev.clientY, Midpoint(ev.target.value))
  }

  /**
   * A move between positions holding different identifiers changes the cart;
   * with distinct identifiers, so does every move between distinct positions.
   */
  lemma MoveChanges(cart: seq<Course>, from: nat, to: nat)
    requires from < |cart| && to < |cart| && from != to
    ensures CourseId(cart[from]) != CourseId(cart[to]) ==> Move(cart, from, to) != cart
    ensures DistinctIds(cart) ==> Move(cart, from, to) != cart
  {
    if DistinctIds(cart) {
      if from < to {
        assert CourseId(cart[from]) != CourseId(cart[to]);
      } else {
        assert CourseId(cart[to]) != CourseId(cart[from]);
      }
    }
  }

  /**
   * The reorder part of a drag-over event: a permutation that changes the
   * cart only when the midpoint rule decides to move, and then puts the
   * dragged course at the target's position. A decision to move always
   * changes the cart: the two positions are first occurrences of their
   * identifiers, so different positions hold different identifiers.
   */
  function Reorder(cart: seq<Course>, draggedId: string, ev: DragOverEvent): (r: seq<Course>)
    requires CanHandle(cart, draggedId, ev)
    ensures |r| == |cart| && multiset(r) == multiset(cart)
    ensures ev.list.None? || ev.target.None? ==> r == cart
    ensures r != cart ==>
      ev.list.Some? && ev.target.Some? && EventDecision(cart, draggedId, ev) != Stay
      && var (d, t) := Positions(cart, draggedId, ev); r[t] == cart[d]
    ensures ev.list.Some? && ev.target.Some? && EventDecision(cart, draggedId, ev) != Stay ==>
      var (d, t) := Positions(cart, draggedId, ev); r == Move(cart, d, t) && r != cart
  {
    if ev.list.None? || ev.target.None? then cart
    else
      var (dragged, target) := Positions(cart, draggedId, ev);
      if Decide(dragged, target, ev.clientY, Midpoint(ev.target.value)) == Stay then cart
      else
        assert CourseId(cart[dragged]) != CourseId(cart[target]);
        MoveChanges(cart, dragged, target);
        Move(cart, dragged, target)
  }

  /**
   * `handleDragOver`: nothing without the list element; otherwise the scroll
   * offset follows the autoscroll rule and, independently, the cart follows
   * the reorder rule.
   */
  function HandleDragOver(v: View, draggedId: string, ev: DragOverEvent): (r: View)
    requires CanHandle(v.cart, draggedId, ev)
    ensures multiset(r.cart) == multiset(v.cart)
    ensures ev.list.None? ==> r == v
    ensures ev.list.Some? ==> r.scrollTop == Autoscroll(ev.clientY, ev.list.value, v.scrollTop)
    ensures ev.list.Some? ==> r.cart == Reorder(v.cart, draggedId, ev)
    ensures v.scrollTop - ScrollStep <= r.scrollTop <= v.scrollTop + ScrollStep
  {
    match ev.list
    case None => v
    case Some(list) => View(Reorder(v.cart, draggedId, ev), Autoscroll(ev.clientY, list, v.scrollTop))
  }

  /** The scroll outcome depends only on the pointer, the list bounds and the old offset, never on the cart or target. */
  lemma ScrollIndependentOfMove(v1: View, id1: string, ev1: DragOverEvent, v2: View, id2: string, ev2: DragOverEvent)
    requires CanHandle(v1.cart, id1, ev1) && CanHandle(v2.cart, id2, ev2)
    requires v1.scrollTop == v2.scrollTop && ev1.clientY == ev2.clientY && ev1.list == ev2.list
    ensures HandleDragOver(v1, id1, ev1).scrollTop == HandleDragOver(v2, id2, ev2).scrollTop
  {
  }

  /**
   * For the same measured target rectangle, the reorder outcome depends
   * neither on the scroll offset nor on where the list's edges are.
   */
  lemma MoveIndependentOfScroll(v1: View, ev1: DragOverEvent, v2: View, ev2: DragOverEvent, id: string)
    requires v1.cart == v2.cart && CanHandle(v1.cart, id, ev1) && CanHandle(v2.cart, id, ev2)
    requires ev1.clientY == ev2.clientY && ev1.target == ev2.target && ev1.list.Some? == ev2.list.Some?
    ensures HandleDragOver(v1, id, ev1).cart == HandleDragOver(v2, id, ev2).cart
  {
  }

  /**
   * When the dragged entry sits on the target entry, or the pointer is exactly
   * on the target's midpoint, the cart does not change.
   */
  lemma NoMoveOnTargetOrMidpoint(v: View, draggedId: string, ev: DragOverEvent)
    requires CanHandle(v.cart, draggedId, ev)
    requires ev.target.Some? ==> draggedId == ev.target.value.id || ev.clientY == Midpoint(ev.target.value)
    ensures HandleDragOver(v, draggedId, ev).cart == v.cart
  {
  }

  /** After a move between distinct positions, the dragged entry is found at `to` and the target entry one step toward `from`. */
  lemma MovedPositions(cart: seq<Course>, from: nat, to: nat)
    requires from < |cart| && to < |cart| && from != to
    requires DistinctIds(cart)
    ensures FindIndex(Move(cart, from, to), CourseId(cart[from])) == to
    ensures FindIndex(Move(cart, from, to), CourseId(cart[to])) == if from > to then to + 1 else to - 1
  {
    var r := Move(cart, from, to);
    MoveElements(cart, from, to);
    MoveKeepsDistinctIds(cart, from, to);
    FindIndexDistinct(r, to);
    var to' := if from > to then to + 1 else to - 1;
    assert Source(from, to, to') == to;
    FindIndexDistinct(r, to');
  }

  /** Reordering twice with the same event reorders once. */
  lemma ReorderStable(cart: seq<Course>, draggedId: string, ev: DragOverEvent)
    requires DistinctIds(cart)
    requires CanHandle(cart, draggedId, ev)
    ensures CanHandle(Reorder(cart, draggedId, ev), draggedId, ev)
    ensures Reorder(Reorder(cart, draggedId, ev), draggedId, ev) == Reorder(cart, draggedId, ev)
  {
    if ev.list.Some? && ev.target.Some? {
      var item := ev.target.value;
      var d := FindIndex(cart, draggedId);
      var t := FindIndex(cart, item.id);
      var decision := Decide(d, t, ev.clientY, Midpoint(item));
      if decision != Stay {
        MovedPositions(cart, d, t);
        var t' := if decision == MoveUp then t + 1 else t - 1;
        assert Decide(t, t', ev.clientY, Midpoint(item)) == Stay;
      }
    }
  }

  /**
   * The same drag-over data delivered a second time, with the same measured
   * target rectangle, does not move anything again: the dragged entry now
   * sits where the target was, and the target entry has shifted to the side
   * of the midpoint the pointer is not on.
   */
  lemma ReprocessingIsStable(v: View, draggedId: string, ev: DragOverEvent)
    requires DistinctIds(v.cart)
    requires CanHandle(v.cart, draggedId, ev)
    ensures CanHandle(HandleDragOver(v, draggedId, ev).cart, draggedId, ev)
    ensures var once := HandleDragOver(v, draggedId, ev);
            HandleDragOver(once, draggedId, ev).cart == once.cart
  {
    ReorderStable(v.cart, draggedId, ev);
  }

  /**
   * The next drag-over with the pointer held still, after the list scrolled
   * from `before` to `after`: the target item, measured again, has moved by
   * the opposite amount.
   */
  function Remeasured(ev: DragOverEvent, before: real, after: real): (r: DragOverEvent)
    ensures r.clientY == ev.clientY && r.list == ev.list && (r.target.Some? <==> ev.target.Some?)
    ensures ev.target.Some? ==>
      r.target.value.id == ev.target.value.id &&
      Midpoint(r.target.value) == Midpoint(ev.target.value) + (before - after)
    ensures before == after ==> r == ev
  {
    match ev.target
    case None => ev
    case Some(item) => ev.(target := Some(item.(y := item.y + (before - after))))
  }

  /**
   * Holding the pointer still over the same item: when the first event did
   * not scroll (the pointer is outside both edge margins), the next event,
   * measured afresh, moves nothing.
   */
  lemma RepeatedDragOverIsStable(v: View, draggedId: string, ev: DragOverEvent)
    requires DistinctIds(v.cart)
    requires CanHandle(v.cart, draggedId, ev)
    ensures var once := HandleDragOver(v, draggedId, ev);
            once.scrollTop == v.scrollTop ==>
              var again := Remeasured(ev, v.scrollTop, once.scrollTop);
              CanHandle(once.cart, draggedId, again) && HandleDragOver(once, draggedId, again).cart == once.cart
  {
    ReprocessingIsStable(v, draggedId, ev);
  }

  /** The pointer 30 below the top of a list spanning 0 to 400, over `target` measured at height 0 with height 55. */
  function EdgeEvent(target: Course): DragOverEvent {
    DragOverEvent(30.0, Some(ListBounds(0.0, 400.0)), Some(TargetItem(CourseId(target), 0.0, 55.0)))
  }

  /**
   * Within an edge margin the next event can undo the move: dragging the
   * first of two courses with the pointer 30 below the list top, the first
   * event moves it down and scrolls up by 10; the target, measured again,
   * now lies 10 lower, its midpoint passes below the pointer, and the
   * second event moves the course back up.
   */
  lemma RemeasuredDragOverCanUndo(a: Course, b: Course)
    requires CourseId(a) != CourseId(b)
    ensures CanHandle([a, b], CourseId(a), EdgeEvent(b))
    ensures HandleDragOver(View([a, b], 100.0), CourseId(a), EdgeEvent(b)) == View([b, a], 90.0)
    ensures CanHandle([b, a], CourseId(a), Remeasured(EdgeEvent(b), 100.0, 90.0))
    ensures HandleDragOver(View([b, a], 90.0), CourseId(a), Remeasured(EdgeEvent(b), 100.0, 90.0)).cart == [a, b]
  {
    FindInPair(a, b);
    FindInPair(b, a);
    FirstEdgeEvent(a, b);
    SecondEdgeEvent(a, b);
  }

  lemma FirstEdgeEvent(a: Course, b: Course)
    requires CourseId(a) != CourseId(b)
    requires CanHandle([a, b], CourseId(a), EdgeEvent(b))
    ensures Reorder([a, b], CourseId(a), EdgeEvent(b)) == [b, a]
  {
    FindInPair(a, b);
    SwapPair(a, b);
    assert Decide(0, 1, 30.0, 27.5) == MoveDown;
  }

  lemma SecondEdgeEvent(a: Course, b: Course)
    requires CourseId(a) != CourseId(b)
    requires CanHandle([b, a], CourseId(a), Remeasured(EdgeEvent(b), 100.0, 90.0))
    ensures Reorder([b, a], CourseId(a), Remeasured(EdgeEvent(b), 100.0, 90.0)) == [a, b]
  {
    FindInPair(b, a);
    SwapPair(a, b);
    assert Midpoint(Remeasured(EdgeEvent(b), 100.0, 90.0).target.value) == 37.5;
    assert Decide(1, 0, 30.0, 37.5) == MoveUp;
  }

  /** In a cart of two courses with different identifiers, each is found at its own position. */
  lemma FindInPair(a: Course, b: Course)
    requires CourseId(a) != CourseId(b)
    ensures FindIndex([a, b], CourseId(a)) == 0 && FindIndex([a, b], CourseId(b)) == 1
  {
    assert [a, b][1..] == [b];
  }

  /** In a cart of two, a move between the positions swaps them. */
  lemma SwapPair(a: Course, b: Course)
    ensures Move([a, b], 0, 1) == [b, a] && Move([b, a], 1, 0) == [a, b]
  {
    MoveElements([a, b], 0, 1);
    MoveElements([b, a], 1, 0);
  }

  /* ---------- the drag gesture ---------- */

  /** The events of one drag gesture. */
  datatype DragEvent = DragStart(id: string) | DragOver(ev: DragOverEvent) | Drop

  /** The checkout list under a gesture: its view and the identifier recorded at drag start. */
  datatype Session = Session(view: View, dragged: string)

  predicate Handles(s: Session, e: DragEvent) {
    e.DragOver? ==> CanHandle(s.view.cart, s.dragged, e.ev)
  }

  /**
   * One event: drag start records the identifier, drag over reorders and
   * scrolls, drop only suppresses the browser default and changes nothing.
   */
  function Step(s: Session, e: DragEvent): (r: Session)
    requires Handles(s, e)
    ensures multiset(r.view.cart) == multiset(s.view.cart)
    ensures e.Drop? ==> r == s
    ensures e.DragStart? ==> r.view == s.view && r.dragged == e.id
    ensures e.DragOver? ==> r.dragged == s.dragged
    ensures e.DragOver? ==> r.view == HandleDragOver(s.view, s.dragged, e.ev)
  {
    match e
    case DragStart(id) => Session(s.view, id)
    case DragOver(ev) => Session(HandleDragOver(s.view, s.dragged, ev), s.dragged)
    case Drop => s
  }

  /* ---------- rating colour ---------- */

  datatype Band = Low | Mid | High

  /** Below this a rating is in the bottom tier. */
  const MidFrom: real := 2.2
  /** From this a rating is in the top tier. */
  const HighFrom: real := 3.3

  /** `getColor`: the tier of a rating, read upside down when a high value is bad. */
  function GetColor(v: real, highGood: bool): (b: Band)
    ensures b == Mid <==> MidFrom <= v < HighFrom
    ensures b == High <==> (if highGood then v >= HighFrom else v < MidFrom)
    ensures b == Low <==> (if highGood then v < MidFrom else v >= HighFrom)
  {
    if v < MidFrom then (if highGood then Low else High)
    else if v < HighFrom then Mid
    else (if highGood then High else Low)
  }

  function Mirror(b: Band): Band {
    match b
    case Low => High
    case Mid => Mid
    case High => Low
  }

  function Rank(b: Band): nat {
    match b
    case Low => 0
    case Mid => 1
    case High => 2
  }

  /** Flipping the direction swaps the outer tiers and leaves the middle one. */
  lemma GetColorMirror(v: real, highGood: bool)
    ensures GetColor(v, !highGood) == Mirror(GetColor(v, highGood))
  {
  }

  /** The tier rises with the value when high is good and falls with it otherwise. */
  lemma GetColorMonotone(v: real, w: real)
    requires v <= w
    ensures Rank(GetColor(v, true)) <= Rank(GetColor(w, true))
    ensures Rank(GetColor(v, false)) >= Rank(GetColor(w, false))
  {
  }

  /* ---------- the `cart` query parameter ---------- */

  /** The `cart` parameter split on `';'`, or nothing when the parameter is missing or empty. */
  function ParseCartQuery(param: Option<string>): (pieces: seq<string>)
    ensures |pieces| == 0 <==> param.None? || param.value == ""
    ensures |pieces| > 0 ==> Strings.Join(pieces, ";") == param.value && Strings.AllFree(pieces, ';')
  {
    match param
    case None => []
    case Some(s) =>
      if s == "" then []
      else
        Strings.JoinSplit(s, ';');
        Strings.SplitPiecesAreFree(s, ';');
        Strings.Split(s, ';')
  }

  /** The first-render check: redirect when the query names courses but the cart is empty. */
  function ShouldRedirect(param: Option<string>, cart: seq<Course>): (r: bool)
    ensures r <==> param.Some? && param.value != "" && |cart| == 0
  {
    |ParseCartQuery(param)| > 0 && |cart| == 0
  }
}

=== FILE: course.dfy ===
/**
 * The course record shared by every component, its identity key
 * (department, number) and the rendered identifier `dept-number`.
 */
module CourseModel {
  import opened Options
  import Strings

  /** Prerequisites arrive either as free text or as a list of course identifiers. */
  datatype Prereqs = FreeText(text: string) | CourseList(ids: seq<string>)

  /** The identity of a course: department code and course number. */
  datatype Key = Key(dept: string, number: nat)

  /** A course as held in the catalog, the cart and the checkout list. Ratings are absent until fetched. */
  datatype Course = Course(
    dept: string,
    number: nat,
    title: string,
    description: string,
    prereqs: Option<Prereqs>,
    crossListed: Option<seq<string>>,
    quality: Option<real>,
    difficulty: Option<real>,
    workRequired: Option<real>)
  {
    function CourseKey(): Key {
      Key(dept, number)
    }
  }

  /** The identifier rendered by the template `${dept}-${number}`. */
  function CourseId(c: Course): (id: string)
    ensures |id| > |c.dept| + 1
  {
    c.dept + "-" + Strings.Decimal(c.number)
  }

  /** The identifier reads back as the department, a hyphen and the course number in decimal. */
  lemma CourseIdParses(c: Course)
    ensures var id := CourseId(c);
      id[..|c.dept|] == c.dept && id[|c.dept|] == '-' &&
      Strings.AllDigits(id[|c.dept| + 1..]) && Strings.DecimalValue(id[|c.dept| + 1..]) == c.number
  {
    var id := CourseId(c);
    assert id[|c.dept| + 1..] == Strings.Decimal(c.number);
    Strings.DecimalRoundTrip(c.number);
  }

  /** The keys of a sequence of courses, position by position. */
  function Keys(cs: seq<Course>): (ks: seq<Key>)
    ensures |ks| == |cs|
    ensures forall i :: 0 <= i < |cs| ==> ks[i] == cs[i].CourseKey()
  {
    seq(|cs|, i requires 0 <= i < |cs| => cs[i].CourseKey())
  }

  /** The identifiers of a sequence of courses, position by position. */
  function Ids(cs: seq<Course>): (ids: seq<string>)
    ensures |ids| == |cs|
    ensures forall i :: 0 <= i < |cs| ==> ids[i] == CourseId(cs[i])
  {
    seq(|cs|, i requires 0 <= i < |cs| => CourseId(cs[i]))
  }

  /** No two entries share a key. */
  ghost predicate NoDuplicateKeys(cs: seq<Course>) {
    forall i, j :: 0 <= i < j < |cs| ==> cs[i].CourseKey() != cs[j].CourseKey()
  }

  /** No two entries render to the same identifier. */
  ghost predicate DistinctIds(cs: seq<Course>) {
    forall i, j :: 0 <= i < j < |cs| ==> CourseId(cs[i]) != CourseId(cs[j])
  }

  lemma SuffixDigitAt(x: string, tail: string, p: int)
    requires Strings.AllDigits(tail)
    requires |tail| <= |x| && x[|x| - |tail|..] == tail
    requires |x| - |tail| <= p < |x|
    ensures x[p] != '-'
  {
    assert x[p] == tail[p - (|x| - |tail|)];
  }

  /**
   * The rendered identifier determines the key: the digits after the last
   * '-' are the number, everything before it is the department, even when
   * the department itself contains a '-'.
   */
  lemma CourseIdInjective(a: Course, b: Course)
    requires CourseId(a) == CourseId(b)
    ensures a.CourseKey() == b.CourseKey()
  {
    var x := CourseId(a);
    var da, db := Strings.Decimal(a.number), Strings.Decimal(b.number);
    assert x[|x| - |da|..] == da && x[|x| - |db|..] == db;
    assert x[|x| - |da| - 1] == '-' && x[|x| - |db| - 1] == '-';
    if |da| < |db| {
      SuffixDigitAt(x, db, |x| - |da| - 1);
    } else if |db| < |da| {
      SuffixDigitAt(x, da, |x| - |db| - 1);
    }
    assert da == db;
    Strings.DecimalInjective(a.number, b.number);
    assert a.dept == x[..|a.dept|] == b.dept;
  }

  /** A cart without duplicate keys has no duplicate identifiers. */
  lemma NoDuplicateKeysDistinctIds(cs: seq<Course>)
    requires NoDuplicateKeys(cs)
    ensures DistinctIds(cs)
  {
    forall i, j | 0 <= i < j < |cs|
      ensures CourseId(cs[i]) != CourseId(cs[j])
    {
      if CourseId(cs[i]) == CourseId(cs[j]) {
        CourseIdInjective(cs[i], cs[j]);
      }
    }
  }

  /** A rendered identifier lacks a character that is neither `'-'` nor a digit whenever the department lacks it. */
  lemma CourseIdFree(c: Course, ch: char)
    requires Strings.Free(c.dept, ch)
    requires ch != '-' && !Strings.IsDigit(ch)
    ensures Strings.Free(CourseId(c), ch)
  {
  }
}

=== FILE: courses.dfy ===
/**
 * The course list page: the search filter over the catalog, the `in_cart`
 * test, `add_to_cart` with its capacity of seven, `remove_from_cart`, and the
 * button that offers one or the other.
 */
module CoursesPage {
  import opened Options
  import opened CourseModel
  import opened Seqs
  import Strings

  /** The cart refuses an add once it holds this many courses. */
  const Capacity: nat := 7

  /* ---------- search ---------- */

  /** A course matches when its title, description or department contains the search text, case-sensitively. */
  predicate Matches(c: Course, search: string) {
    Strings.Includes(c.title, search) || Strings.Includes(c.description, search) || Strings.Includes(c.dept, search)
  }

  /** The reference meaning of a match: the search text occurs at some position of one of the three fields. */
  ghost predicate MatchesByPosition(c: Course, search: string) {
    Strings.Contains(c.title, search) || Strings.Contains(c.description, search) || Strings.Contains(c.dept, search)
  }

  /** The catalog courses shown for a search text, in catalog order. */
  function Search(catalog: seq<Course>, search: string): (shown: seq<Course>)
    ensures forall k :: 0 <= k < |shown| ==> shown[k] in catalog
    ensures Subsequence(shown, catalog)
    ensures forall c :: c in shown <==>
      c in catalog
      && MatchesByPosition(c, search)
  {
    var shown := Filter((c: Course) => Matches(c, search), catalog);
    FilterIsSubsequence((c: Course) => Matches(c, search), catalog);
    assert forall c: Course :: Matches(c, search) <==> MatchesByPosition(c, search) by {
      forall c: Course
        ensures Matches(c, search) <==> MatchesByPosition(c, search)
      {
        Strings.IncludesIsContains(c.title, search);
        Strings.IncludesIsContains(c.description, search);
        Strings.IncludesIsContains(c.dept, search);
      }
    }
    shown
  }

  /** The empty search text shows the whole catalog. */
  lemma SearchEmpty(catalog: seq<Course>)
    ensures Search(catalog, "") == catalog
  {
    forall c: Course
      ensures Matches(c, "")
    {
      Strings.IncludesEmpty(c.title);
    }
    FilterAll((c: Course) => Matches(c, ""), catalog);
  }

  /** A catalog course appears in the search result exactly as often as in the catalog, or not at all. */
  lemma SearchMultiplicity(catalog: seq<Course>, search: string, c: Course)
    ensures multiset(Search(catalog, search))[c] == if Matches(c, search) then multiset(catalog)[c] else 0
  {
    FilterMultiplicity((c: Course) => Matches(c, search), catalog, c);
  }

  /* ---------- in_cart ---------- */

  /** The filter `in_cart` applies: same department and same number. */
  function HasKeyOf(c: Course): Course -> bool {
    (x: Course) => x.CourseKey() == c.CourseKey()
  }

  lemma {:induction false} FilterKeyCount(cart: seq<Course>, c: Course)
    ensures |Filter(HasKeyOf(c), cart)| == multiset(Keys(cart))[c.CourseKey()]
    decreases |cart|
  {
    if |cart| > 0 {
      FilterKeyCount(cart[1..], c);
      assert Keys(cart) == [cart[0].CourseKey()] + Keys(cart[1..]);
    }
  }

  /**
   * `in_cart`: exactly one cart entry has the course's department and number.
   * It counts keys, so two copies of a key read as "not in cart".
   */
  predicate InCart(cart: seq<Course>, c: Course)
    ensures InCart(cart, c) <==> multiset(Keys(cart))[c.CourseKey()] == 1
  {
    FilterKeyCount(cart, c);
    |Filter(HasKeyOf(c), cart)| == 1
  }

  lemma UniqueCountsOnce<T>(s: seq<T>, i: nat)
    requires i < |s|
    requires forall j :: 0 <= j < |s| && j != i ==> s[j] != s[i]
    ensures multiset(s)[s[i]] == 1
  {
    assert s == s[..i] + [s[i]] + s[i + 1..];
    assert s[i] !in s[..i];
    assert s[i] !in s[i + 1..];
  }

  /** In a cart without duplicate keys, `in_cart` is plain key membership. */
  lemma InCartIsMembership(cart: seq<Course>, c: Course)
    requires NoDuplicateKeys(cart)
    ensures InCart(cart, c) <==> c.CourseKey() in Keys(cart)
  {
    var ks := Keys(cart);
    if c.CourseKey() in ks {
      var i :| 0 <= i < |ks| && ks[i] == c.CourseKey();
      forall j | 0 <= j < |ks| && j != i
        ensures ks[j] != ks[i]
      {
        if j < i { assert cart[j].CourseKey() != cart[i].CourseKey(); }
        else { assert cart[i].CourseKey() != cart[j].CourseKey(); }
      }
      UniqueCountsOnce(ks, i);
    }
  }

  /* ---------- add_to_cart ---------- */

  /** The cart after an add, and whether the "Cart limit exceeded" notice was raised instead. */
  datatype AddOutcome = AddOutcome(cart: seq<Course>, limitExceeded: bool)

  /** `add_to_cart`: refused with a notice when the cart holds exactly seven courses, otherwise appended at the end. */
  function AddToCart(cart: seq<Course>, c: Course): (r: AddOutcome)
    ensures r.limitExceeded <==> |cart| == Capacity
    ensures r.limitExceeded ==> r.cart == cart
    ensures !r.limitExceeded ==> |r.cart| == |cart| + 1 && r.cart[..|cart|] == cart && r.cart[|cart|] == c
  {
    if |cart| == Capacity then AddOutcome(cart, true) else AddOutcome(cart + [c], false)
  }

  /** Any number of adds, in order. */
  function AddAll(cart: seq<Course>, cs: seq<Course>): seq<Course>
    decreases |cs|
  {
    if |cs| == 0 then cart else AddAll(AddToCart(cart, cs[0]).cart, cs[1..])
  }

  /** From a cart within capacity, no sequence of adds takes it past capacity. */
  lemma {:induction false} AddAllWithinCapacity(cart: seq<Course>, cs: seq<Course>)
    requires |cart| <= Capacity
    ensures |AddAll(cart, cs)| <= Capacity
    decreases |cs|
  {
    if |cs| > 0 {
      AddAllWithinCapacity(AddToCart(cart, cs[0]).cart, cs[1..]);
    }
  }

  /* ---------- remove_from_cart ---------- */

  /** The filter `remove_from_cart` applies: the entry's number or department differs from the course's. */
  function Differs(c: Course): Course -> bool {
    (x: Course) => x.CourseKey() != c.CourseKey()
  }

  /** `remove_from_cart`: keep the entries whose number or department differs. */
  function RemoveFromCart(cart: seq<Course>, c: Course): (r: seq<Course>)
    ensures c.CourseKey() !in Keys(r)
    ensures forall x :: x in r <==> x in cart && x.CourseKey() != c.CourseKey()
    ensures Subsequence(r, cart)
    ensures forall x :: multiset(r)[x] == if x.CourseKey() == c.CourseKey() then 0 else multiset(cart)[x]
  {
    var r := Filter(Differs(c), cart);
    FilterIsSubsequence(Differs(c), cart);
    assert forall x :: multiset(r)[x] == if x.CourseKey() == c.CourseKey() then 0 else multiset(cart)[x] by {
      forall x
        ensures multiset(r)[x] == if x.CourseKey() == c.CourseKey() then 0 else multiset(cart)[x]
      {
        FilterMultiplicity(Differs(c), cart, x);
      }
    }
    r
  }

  /** Removing a course whose key is in the cart shortens the cart. */
  lemma RemoveShrinks(cart: seq<Course>, c: Course)
    requires c.CourseKey() in Keys(cart)
    ensures |RemoveFromCart(cart, c)| < |cart|
  {
    var ks := Keys(cart);
    var i :| 0 <= i < |ks| && ks[i] == c.CourseKey();
    FilterDrops(Differs(c), cart, i);
  }

  /** Removing a course that is not in the cart changes nothing. */
  lemma RemoveAbsent(cart: seq<Course>, c: Course)
    requires c.CourseKey() !in Keys(cart)
    ensures RemoveFromCart(cart, c) == cart
  {
    FilterAll(Differs(c), cart);
  }

  /** Removing twice is removing once. */
  lemma RemoveIdempotent(cart: seq<Course>, c: Course)
    ensures RemoveFromCart(RemoveFromCart(cart, c), c) == RemoveFromCart(cart, c)
  {
    FilterIdempotent(Differs(c), cart);
  }

  /** Adding an absent course below capacity and then removing it gives back the original cart. */
  lemma AddThenRemove(cart: seq<Course>, c: Course)
    requires |cart| != Capacity
    requires c.CourseKey() !in Keys(cart)
    ensures RemoveFromCart(AddToCart(cart, c).cart, c) == cart
  {
    var p := Differs(c);
    FilterAppend(p, cart, [c]);
    FilterAll(p, cart);
    assert Filter(p, [c]) == [];
  }

  /* ---------- the add / remove button ---------- */

  /** The cart invariant the page maintains: within capacity and no key twice. */
  ghost predicate ValidCart(cart: seq<Course>) {
    |cart| <= Capacity && NoDuplicateKeys(cart)
  }

  /**
   * Pressing the button shown next to a course: "-" removes it when
   * `in_cart`, "+" adds it otherwise (at the end, unless the cart is full).
   */
  function PressButton(cart: seq<Course>, c: Course): (r: seq<Course>)
    ensures InCart(cart, c) ==> c.CourseKey() !in Keys(r) && Subsequence(r, cart) && |r| < |cart|
    ensures InCart(cart, c) ==>
      forall x :: multiset(r)[x] == if x.CourseKey() == c.CourseKey() then 0 else multiset(cart)[x]
    ensures !InCart(cart, c) ==> r == cart || r == cart + [c]
    ensures !InCart(cart, c) ==> (r == cart <==> |cart| == Capacity)
  {
    if InCart(cart, c) then
      assert multiset(Keys(cart))[c.CourseKey()] == 1;
      RemoveShrinks(cart, c);
      RemoveFromCart(cart, c)
    else AddToCart(cart, c).cart
  }

  /**
   * The record a course-list button passes on: `{dept, number, title,
   * description}` taken from the catalog entry, without prerequisites,
   * cross-listings or ratings.
   */
  function CartRecord(c: Course): (r: Course)
    ensures r.CourseKey() == c.CourseKey() && CourseId(r) == CourseId(c)
    ensures r.title == c.title && r.description == c.description
    ensures r.prereqs.None? && r.crossListed.None?
    ensures r.quality.None? && r.difficulty.None? && r.workRequired.None?
  {
    Course(c.dept, c.number, c.title, c.description, None, None, None, None, None)
  }

  /**
   * The button reads only the key, so pressing it with the four-field copy
   * tests and removes exactly as with the catalog entry; an add appends the copy.
   */
  lemma PressButtonOnRecord(cart: seq<Course>, c: Course)
    ensures InCart(cart, CartRecord(c)) <==> InCart(cart, c)
    ensures RemoveFromCart(cart, CartRecord(c)) == RemoveFromCart(cart, c)
    ensures !InCart(cart, c) && |cart| != Capacity ==> PressButton(cart, CartRecord(c)) == cart + [CartRecord(c)]
  {
    assert Differs(CartRecord(c)) == Differs(c);
  }

  lemma RemovePreservesNoDuplicates(cart: seq<Course>, c: Course)
    requires NoDuplicateKeys(cart)
    ensures NoDuplicateKeys(RemoveFromCart(cart, c))
  {
    var p := Differs(c);
    var r := RemoveFromCart(cart, c);
    forall x ensures multiset(r)[x] <= 1 {
      FilterMultiplicity(p, cart, x);
      DistinctMultiplicity(cart, x);
    }
    forall i, j | 0 <= i < j < |r|
      ensures r[i].CourseKey() != r[j].CourseKey()
    {
      SubsequenceKeysDistinct(r, cart, i, j);
    }
  }

  lemma DistinctMultiplicity(cart: seq<Course>, x: Course)
    requires NoDuplicateKeys(cart)
    ensures multiset(cart)[x] <= 1
    decreases |cart|
  {
    if |cart| > 0 {
      DistinctMultiplicity(cart[1..], x);
      assert cart == [cart[0]] + cart[1..];
      if cart[0] == x {
        forall k | 0 <= k < |cart[1..]|
          ensures cart[1..][k] != x
        {
          assert cart[0].CourseKey() != cart[k + 1].CourseKey();
        }
      }
    }
  }

  /** Elements of a subsequence of a duplicate-free cart have distinct keys. */
  lemma {:induction false} SubsequenceKeysDistinct(r: seq<Course>, cart: seq<Course>, i: nat, j: nat)
    requires Subsequence(r, cart)
    requires NoDuplicateKeys(cart)
    requires i < j < |r|
    ensures r[i].CourseKey() != r[j].CourseKey()
    decreases |cart|
  {
    if r[0] == cart[0] && Subsequence(r[1..], cart[1..]) {
      if i == 0 {
        SubsequenceMember(r[1..], cart[1..], j - 1);
        var k :| 0 <= k < |cart[1..]| && cart[1..][k] == r[j];
        assert cart[0].CourseKey() != cart[k + 1].CourseKey();
      } else {
        SubsequenceKeysDistinct(r[1..], cart[1..], i - 1, j - 1);
      }
    } else {
      SubsequenceKeysDistinct(r, cart[1..], i, j);
    }
  }

  lemma {:induction false} SubsequenceMember<T>(r: seq<T>, s: seq<T>, i: nat)
    requires Subsequence(r, s)
    requires i < |r|
    ensures r[i] in s
    decreases |s|
  {
    if r[0] == s[0] && Subsequence(r[1..], s[1..]) {
      if i > 0 {
        SubsequenceMember(r[1..], s[1..], i - 1);
      }
    } else {
      SubsequenceMember(r, s[1..], i);
    }
  }

  /**
   * Under the button's gating a valid cart stays valid, an accepted add leaves
   * the course in the cart, and a remove takes it out.
   */
  lemma PressButtonKeepsCartValid(cart: seq<Course>, c: Course)
    requires ValidCart(cart)
    ensures ValidCart(PressButton(cart, c))
    ensures InCart(cart, c) ==> !InCart(PressButton(cart, c), c)
    ensures !InCart(cart, c) && |cart| < Capacity ==> InCart(PressButton(cart, c), c)
    ensures !InCart(cart, c) && |cart| == Capacity ==> PressButton(cart, c) == cart
  {
    InCartIsMembership(cart, c);
    var r := PressButton(cart, c);
    if InCart(cart, c) {
      RemovePreservesNoDuplicates(cart, c);
      InCartIsMembership(r, c);
    } else if |cart| < Capacity {
      assert r == cart + [c];
      assert forall i :: 0 <= i < |cart| ==> cart[i].CourseKey() != c.CourseKey() by {
        forall i | 0 <= i < |cart| ensures cart[i].CourseKey() != c.CourseKey() {
          assert Keys(cart)[i] == cart[i].CourseKey();
        }
      }
      assert NoDuplicateKeys(r);
      assert Keys(r)[|cart|] == c.CourseKey();
      InCartIsMembership(r, c);
    }
  }
}

=== FILE: get_course.dfy ===
/**
 * The rating merge run when the checkout page opens: every cart course is
 * looked up under its identifier and, when the lookup answers, its three
 * ratings are overwritten. The HTTP request is a parameter.
 *
 * The code as written formats each rating of an answered body with
 * `toFixed(2)`, which throws when a rating is missing; the thrown error
 * rejects `Promise.all` and so the whole merge. `GetAll` models that;
 * `GetAllTolerant` is the merge that keeps going, course by course.
 */
module GetCourse {
  import opened Options
  import opened CourseModel

  /** The three ratings an answered body carries; any of them may be missing (`null` or absent). */
  datatype CourseData = CourseData(courseQuality: Option<real>, workRequired: Option<real>, difficulty: Option<real>)

  /** How the request for one identifier ended: answered with a body (which may be empty), or rejected. */
  datatype Fetch = Answered(data: Option<CourseData>) | Rejected

  /** All three ratings are present, so formatting them cannot throw. */
  predicate Complete(d: CourseData) {
    d.courseQuality.Some? && d.workRequired.Some? && d.difficulty.Some?
  }

  /** `getCourseData`: a rejected request is caught and reads as "no data", never as a failure. */
  function GetCourseData(f: Fetch): (r: Option<CourseData>)
    ensures r.Some? ==> f.Answered? && f.data == r
    ensures f.Answered? ==> r == f.data
    ensures f.Rejected? ==> r.None?
  {
    match f
    case Answered(data) => data
    case Rejected => None
  }

  /** A course with its ratings cleared: the part the merge never touches. */
  function Unrated(c: Course): Course {
    c.(quality := None, difficulty := None, workRequired := None)
  }

  /** The course shows exactly the three ratings of `d`. */
  predicate CarriesRatings(c: Course, d: CourseData) {
    c.quality == d.courseQuality && c.workRequired == d.workRequired && c.difficulty == d.difficulty
  }

  /**
   * The per-course step of `getAll` as written: copy the course, overwriting
   * the three ratings when data came back; `None` when formatting a missing
   * rating throws.
   */
  function MergeOne(c: Course, data: Option<CourseData>): (r: Option<Course>)
    ensures r.None? <==> data.Some? && !Complete(data.value)
    ensures data.None? ==> r == Some(c)
    ensures r.Some? ==> Unrated(r.value) == Unrated(c) && CourseId(r.value) == CourseId(c)
    ensures r.Some? && data.Some? ==> CarriesRatings(r.value, data.value)
  {
    match data
    case None => Some(c)
    case Some(d) =>
      if Complete(d) then Some(c.(quality := d.courseQuality, workRequired := d.workRequired, difficulty := d.difficulty))
      else None
  }

  /** The data looked up for a course: the request is made under its rendered identifier `dept-number`. */
  function Lookup(fetch: string -> Fetch, c: Course): (r: Option<CourseData>)
    ensures r.Some? ==> fetch(CourseId(c)).Answered? && fetch(CourseId(c)).data == r
    ensures fetch(CourseId(c)).Answered? ==> r == fetch(CourseId(c)).data
    ensures fetch(CourseId(c)).Rejected? ==> r.None?
  {
    GetCourseData(fetch(CourseId(c)))
  }

  /** The course's answer is a body that lacks a rating, so its merge step throws. */
  predicate Throws(fetch: string -> Fetch, c: Course) {
    MergeOne(c, Lookup(fetch, c)).None?
  }

  /**
   * `getAll` as written: `Promise.all` over the per-course steps. It fails
   * as a whole when any step throws; otherwise one merged record per cart
   * course, same length, same order.
   */
  function GetAll(cart: seq<Course>, fetch: string -> Fetch): (r: Option<seq<Course>>)
    ensures r.None? <==> exists i :: 0 <= i < |cart| && Throws(fetch, cart[i])
    ensures r.Some? ==> |r.value| == |cart| && Keys(r.value) == Keys(cart) && Ids(r.value) == Ids(cart)
    ensures r.Some? ==> forall i :: 0 <= i < |cart| ==> Unrated(r.value[i]) == Unrated(cart[i])
    ensures r.Some? ==> forall i :: 0 <= i < |cart| && Lookup(fetch, cart[i]).None? ==> r.value[i] == cart[i]
    ensures r.Some? ==> forall i :: 0 <= i < |cart| && Lookup(fetch, cart[i]).Some? ==>
      CarriesRatings(r.value[i], Lookup(fetch, cart[i]).value)
  {
    if forall i | 0 <= i < |cart| :: !Throws(fetch, cart[i]) then
      Some(seq(|cart|, i requires 0 <= i < |cart| => MergeOne(cart[i], Lookup(fetch, cart[i])).value))
    else None
  }

  /** One course whose answer lacks a rating makes the whole merge fail, losing every other course's ratings. */
  lemma GetAllFailsOnMissingRating(cart: seq<Course>, fetch: string -> Fetch, i: nat)
    requires i < |cart|
    requires Lookup(fetch, cart[i]).Some? && !Complete(Lookup(fetch, cart[i]).value)
    ensures GetAll(cart, fetch).None?
  {
    assert Throws(fetch, cart[i]);
  }

  /**
   * Two courses, the first answered with all three ratings and the second
   * with no course quality: the merge yields nothing at all.
   */
  lemma GetAllFailsExample(a: Course, b: Course)
    requires CourseId(a) != CourseId(b)
    ensures var fetch := (id: string) =>
              if id == CourseId(a) then Answered(Some(CourseData(Some(3.1), Some(2.0), Some(2.5))))
              else Answered(Some(CourseData(None, Some(2.0), Some(2.5))));
            GetAll([a, b], fetch).None?
  {
    var fetch := (id: string) =>
      if id == CourseId(a) then Answered(Some(CourseData(Some(3.1), Some(2.0), Some(2.5))))
      else Answered(Some(CourseData(None, Some(2.0), Some(2.5))));
    GetAllFailsOnMissingRating([a, b], fetch, 1);
  }

  /** When every request is rejected the merge returns the cart unchanged. */
  lemma GetAllAllRejected(cart: seq<Course>, fetch: string -> Fetch)
    requires forall id :: fetch(id).Rejected?
    ensures GetAll(cart, fetch) == Some(cart)
  {
    forall i | 0 <= i < |cart|
      ensures !Throws(fetch, cart[i]) && Lookup(fetch, cart[i]).None?
    {
      assert fetch(CourseId(cart[i])).Rejected?;
    }
    var r := GetAll(cart, fetch);
    assert r.Some?;
    assert r.value == cart;
  }

  /* ---------- the merge with per-course tolerance ---------- */

  /** The intended per-course step: every rating the body carries overwrites the course's, missing ones leave it as it was. */
  function MergeOneTolerant(c: Course, data: Option<CourseData>): (r: Course)
    ensures Unrated(r) == Unrated(c) && CourseId(r) == CourseId(c)
    ensures data.None? ==> r == c
    ensures data.Some? && Complete(data.value) ==> CarriesRatings(r, data.value)
    ensures data.Some? ==> r.quality == (if data.value.courseQuality.Some? then data.value.courseQuality else c.quality)
    ensures data.Some? ==> r.workRequired == (if data.value.workRequired.Some? then data.value.workRequired else c.workRequired)
    ensures data.Some? ==> r.difficulty == (if data.value.difficulty.Some? then data.value.difficulty else c.difficulty)
  {
    match data
    case None => c
    case Some(d) =>
      c.(quality := if d.courseQuality.Some? then d.courseQuality else c.quality,
         workRequired := if d.workRequired.Some? then d.workRequired else c.workRequired,
         difficulty := if d.difficulty.Some? then d.difficulty else c.difficulty)
  }

  /** The intended `getAll`: every course merged on its own, so the merge never fails. */
  function GetAllTolerant(cart: seq<Course>, fetch: string -> Fetch): (r: seq<Course>)
    ensures |r| == |cart| && Keys(r) == Keys(cart) && Ids(r) == Ids(cart)
    ensures forall i :: 0 <= i < |cart| ==> Unrated(r[i]) == Unrated(cart[i])
    ensures forall i :: 0 <= i < |cart| && Lookup(fetch, cart[i]).None? ==> r[i] == cart[i]
    ensures forall i :: 0 <= i < |cart| && Lookup(fetch, cart[i]).Some? && Complete(Lookup(fetch, cart[i]).value) ==>
      CarriesRatings(r[i], Lookup(fetch, cart[i]).value)
  {
    seq(|cart|, i requires 0 <= i < |cart| => MergeOneTolerant(cart[i], Lookup(fetch, cart[i])))
  }

  /** Whenever the merge as written succeeds, the tolerant merge gives the same cart. */
  lemma GetAllTolerantAgrees(cart: seq<Course>, fetch: string -> Fetch)
    requires GetAll(cart, fetch).Some?
    ensures GetAllTolerant(cart, fetch) == GetAll(cart, fetch).value
  {
    var r := GetAll(cart, fetch).value;
    var t := GetAllTolerant(cart, fetch);
    forall i | 0 <= i < |cart|
      ensures t[i] == r[i]
    {
      assert !Throws(fetch, cart[i]);
    }
  }

  /**
   * In the tolerant merge each record depends only on its own course and on
   * the answer for its own identifier: another course's failed, missing or
   * incomplete answer cannot change it.
   */
  lemma GetAllIsLocal(cart: seq<Course>, f1: string -> Fetch, f2: string -> Fetch, i: nat)
    requires i < |cart|
    requires GetCourseData(f1(CourseId(cart[i]))) == GetCourseData(f2(CourseId(cart[i])))
    ensures GetAllTolerant(cart, f1)[i] == GetAllTolerant(cart, f2)[i]
  {
  }

  /** Merging again with the same answers changes nothing more. */
  lemma GetAllIdempotent(cart: seq<Course>, fetch: string -> Fetch)
    ensures GetAllTolerant(GetAllTolerant(cart, fetch), fetch) == GetAllTolerant(cart, fetch)
  {
    var once := GetAllTolerant(cart, fetch);
    forall i | 0 <= i < |cart|
      ensures GetAllTolerant(once, fetch)[i] == once[i]
    {
      assert CourseId(once[i]) == CourseId(cart[i]);
    }
  }
}

=== FILE: nav.dfy ===
/** The navigation bar: the checkout link's query string and the cart-count badge. */
module Nav {
  import opened Options
  import opened CourseModel
  import Strings
  import Checkout
  import CoursesPage

  /** `cartToQuery`: the cart's identifiers joined by `'+'`, in cart order. */
  function CartToQuery(ids: seq<string>): (q: string)
    ensures |ids| == 0 ==> q == ""
    ensures |ids| == 1 ==> q == ids[0]
    ensures |ids| > 0 && Strings.AllFree(ids, '+') ==> Strings.Split(q, '+') == ids
  {
    JoinPlusSplits(ids);
    Strings.Join(ids, "+")
  }

  /** Splitting a `'+'`-join of `'+'`-free identifiers on `'+'` recovers them. */
  lemma JoinPlusSplits(ids: seq<string>)
    ensures |ids| > 0 && Strings.AllFree(ids, '+') ==> Strings.Split(Strings.Join(ids, "+"), '+') == ids
  {
    if |ids| > 0 && Strings.AllFree(ids, '+') {
      Strings.SplitJoin(ids, '+');
    }
  }

  /** The count next to the cart icon: shown, as the cart length, only for a non-empty cart. */
  function CartBadge(cart: seq<Course>): (badge: Option<nat>)
    ensures badge.Some? <==> |cart| > 0
    ensures badge.Some? ==> badge.value == |cart|
  {
    if |cart| > 0 then Some(|cart|) else None
  }

  /** The badge follows the course-list button: an accepted add raises the count by one, a remove lowers it. */
  lemma CartBadgeFollowsButton(cart: seq<Course>, c: Course)
    ensures !CoursesPage.InCart(cart, c) && |cart| < CoursesPage.Capacity ==>
      CartBadge(CoursesPage.PressButton(cart, c)) == Some(|cart| + 1)
    ensures CoursesPage.InCart(cart, c) ==>
      CartBadge(cart).Some? && (CartBadge(CoursesPage.PressButton(cart, c)).None? ||
        CartBadge(CoursesPage.PressButton(cart, c)).value < CartBadge(cart).value)
  {
  }

  /** The `cart` value the checkout page reads back from the link: form decoding turns each `'+'` into a space. */
  function CheckoutParam(query: string): (param: Option<string>)
    ensures param.Some? && |param.value| == |query| && Strings.Free(param.value, '+')
    ensures forall i :: 0 <= i < |query| && query[i] != '+' ==> param.value[i] == query[i]
    ensures forall i :: 0 <= i < |query| && query[i] == '+' ==> param.value[i] == ' '
  {
    Some(Strings.FormDecode(query))
  }

  /**
   * The link joins with `'+'` but the checkout page splits on `';'`: for two
   * or more identifiers free of both characters, the page sees one piece, the
   * identifiers joined by spaces, instead of one piece per course.
   */
  lemma QueryDelimiterMismatch(ids: seq<string>)
    requires |ids| >= 2
    requires Strings.AllFree(ids, ';') && Strings.AllFree(ids, '+')
    ensures Checkout.ParseCartQuery(CheckoutParam(CartToQuery(ids))) == [Strings.Join(ids, " ")]
    ensures |Checkout.ParseCartQuery(CheckoutParam(CartToQuery(ids)))| != |ids|
  {
    Strings.FormDecodeJoin(ids);
    Strings.JoinFree(ids, " ", ';');
    var joined := Strings.Join(ids, " ");
    assert |joined| > 0 by {
      assert joined == ids[0] + " " + Strings.Join(ids[1..], " ");
    }
    Strings.SplitFree(joined, ';');
  }

  /**
   * Were the link to carry the identifiers CIS-120 and CIS-121, the checkout
   * page would read them as a single piece. (As written the link carries the
   * empty `course.id` values instead; see `CartLinkAsWritten`.)
   */
  lemma QueryDelimiterMismatchExample()
    ensures Checkout.ParseCartQuery(CheckoutParam(CartToQuery(["CIS-120", "CIS-121"]))) == ["CIS-120 CIS-121"]
  {
    ExampleIdsFree();
    QueryDelimiterMismatch(["CIS-120", "CIS-121"]);
    ExampleSpaceJoin();
  }

  lemma ExampleIdsFree()
    ensures Strings.AllFree(["CIS-120", "CIS-121"], '+') && Strings.AllFree(["CIS-120", "CIS-121"], ';')
  {
    assert Strings.Free("CIS-120", '+') && Strings.Free("CIS-120", ';');
    assert Strings.Free("CIS-121", '+') && Strings.Free("CIS-121", ';');
  }

  lemma ExampleSpaceJoin()
    ensures Strings.Join(["CIS-120", "CIS-121"], " ") == "CIS-120 CIS-121"
  {
    var ids := ["CIS-120", "CIS-121"];
    assert ids[1..] == ["CIS-121"];
    assert Strings.Join(ids, " ") == "CIS-120" + " " + "CIS-121";
  }

  /**
   * For any cart of two or more courses the checkout page reads a single
   * piece: from the link as written, which joins the empty `course.id`
   * values, and equally from a link carrying the `dept-number` identifiers,
   * provided no department contains `'+'` or `';'`.
   */
  lemma CartLinkLosesCourses(cart: seq<Course>)
    requires |cart| >= 2
    requires forall k :: 0 <= k < |cart| ==> Strings.Free(cart[k].dept, '+') && Strings.Free(cart[k].dept, ';')
    ensures |Checkout.ParseCartQuery(CheckoutParam(CartToQuery(RecordIds(cart))))| == 1
    ensures |Checkout.ParseCartQuery(CheckoutParam(CartToQuery(Ids(cart))))| == 1
  {
    QueryDelimiterMismatch(RecordIds(cart));
    var ids := Ids(cart);
    forall k | 0 <= k < |ids|
      ensures Strings.Free(ids[k], '+') && Strings.Free(ids[k], ';')
    {
      CourseIdFree(cart[k], '+');
      CourseIdFree(cart[k], ';');
    }
    QueryDelimiterMismatch(ids);
  }

  /**
   * What `course.id` reads on the records the course list puts in the cart:
   * they carry `dept` and `number` but no `id`, and `join` renders the
   * missing value as the empty string.
   */
  function RecordIdField(c: Course): string {
    ""
  }

  /** The identifiers `cartToQuery` actually joins for a cart of such records. */
  function RecordIds(cart: seq<Course>): (ids: seq<string>)
    ensures |ids| == |cart|
    ensures forall k :: 0 <= k < |ids| ==> ids[k] == ""
  {
    seq(|cart|, k requires 0 <= k < |cart| => RecordIdField(cart[k]))
  }

  /**
   * As written, a cart of two courses links to `?cart=+`, and the checkout
   * page reads the single piece `" "`: still one piece, now holding no
   * identifier at all.
   */
  lemma CartLinkAsWritten(a: Course, b: Course)
    ensures CartToQuery(RecordIds([a, b])) == "+"
    ensures Checkout.ParseCartQuery(CheckoutParam(CartToQuery(RecordIds([a, b])))) == [" "]
  {
    var ids := RecordIds([a, b]);
    assert ids == ["", ""];
    QueryDelimiterMismatch(ids);
    assert Strings.Join(ids, " ") == " ";
  }

  /** The query the link was meant to carry: identifiers joined by `';'`, the delimiter the checkout page splits on. */
  function CartToQueryIntended(ids: seq<string>): (q: string)
    ensures |ids| == 0 ==> q == ""
    ensures |ids| == 1 ==> q == ids[0]
  {
    Strings.Join(ids, ";")
  }

  /** With the intended delimiter, the checkout page reads back exactly the cart's identifiers, in order. */
  lemma IntendedQueryRoundTrip(ids: seq<string>)
    requires Strings.AllFree(ids, ';') && Strings.AllFree(ids, '+')
    requires forall k :: 0 <= k < |ids| ==> ids[k] != ""
    ensures Checkout.ParseCartQuery(CheckoutParam(CartToQueryIntended(ids))) == ids
  {
    if |ids| > 0 {
      var q := Strings.Join(ids, ";");
      Strings.JoinFree(ids, ";", '+');
      Strings.FormDecodeFree(q);
      if |ids| >= 2 {
        Strings.JoinHasSeparator(ids, ';');
      }
      assert q != "";
      Strings.SplitJoin(ids, ';');
    }
  }

  /**
   * The checkout page opened from a link built on one cart (`linked`) while
   * the application holds another (`cart`). As written, the link names
   * courses only when it joins two or more empty `course.id` values, so the
   * page redirects iff the linked cart had at least two courses and the
   * current cart is empty; with the intended link, iff the linked cart was
   * non-empty and the current cart is empty.
   */
  lemma RedirectFromLink(linked: seq<Course>, cart: seq<Course>)
    ensures (Checkout.ShouldRedirect(CheckoutParam(CartToQuery(RecordIds(linked))), cart)
             <==> |linked| >= 2 && |cart| == 0)
    ensures (Checkout.ShouldRedirect(CheckoutParam(CartToQueryIntended(Ids(linked))), cart)
             <==> |linked| > 0 && |cart| == 0)
  {
    var empties := RecordIds(linked);
    if |linked| >= 2 {
      Strings.JoinHasSeparator(empties, '+');
      Strings.JoinHasSeparator(Ids(linked), ';');
    } else if |linked| == 1 {
      assert CartToQueryIntended(Ids(linked)) == CourseId(linked[0]);
    }
  }

  /** Following the link from the navigation bar, as written or with the intended delimiter, never triggers the checkout page's empty-cart redirect. */
  lemma LinkNeverRedirects(cart: seq<Course>)
    ensures !Checkout.ShouldRedirect(CheckoutParam(CartToQuery(RecordIds(cart))), cart)
    ensures !Checkout.ShouldRedirect(CheckoutParam(CartToQuery(Ids(cart))), cart)
    ensures !Checkout.ShouldRedirect(CheckoutParam(CartToQueryIntended(Ids(cart))), cart)
  {
  }
}

=== FILE: options.dfy ===
/** An optional value: the model's stand-in for a JavaScript field or result that may be `undefined`. */
module Options {

  datatype Option<+T> = None | Some(value: T)
}

=== FILE: seqs.dfy ===
/**
 * Sequence operations the application performs through JavaScript array
 * methods: `filter`, and the `splice` remove / `splice` insert pair used for
 * reordering.
 */
module Seqs {

  /** `r` can be obtained from `s` by deleting elements, keeping the order of the rest. */
  ghost predicate Subsequence<T>(r: seq<T>, s: seq<T>)
    decreases |s|
  {
    if |r| == 0 then true
    else if |s| == 0 then false
    else (r[0] == s[0] && Subsequence(r[1..], s[1..])) || Subsequence(r, s[1..])
  }

  /** `s.filter(p)`: the elements satisfying `p`, in their original order. */
  function Filter<T>(p: T -> bool, s: seq<T>): (r: seq<T>)
    ensures |r| <= |s|
    ensures forall k :: 0 <= k < |r| ==> r[k] in s && p(r[k])
    ensures forall k :: 0 <= k < |s| && p(s[k]) ==> s[k] in r
    decreases |s|
  {
    if |s| == 0 then []
    else (if p(s[0]) then [s[0]] else []) + Filter(p, s[1..])
  }

  /** Filtering keeps the original order. */
  lemma {:induction false} FilterIsSubsequence<T>(p: T -> bool, s: seq<T>)
    ensures Subsequence(Filter(p, s), s)
    decreases |s|
  {
    if |s| > 0 {
      FilterIsSubsequence(p, s[1..]);
      var r := Filter(p, s);
      if p(s[0]) {
        assert r[0] == s[0] && r[1..] == Filter(p, s[1..]);
      } else {
        assert r == Filter(p, s[1..]);
      }
    }
  }

  /** Filtering keeps every copy of a satisfying element and no copy of any other. */
  lemma {:induction false} FilterMultiplicity<T>(p: T -> bool, s: seq<T>, x: T)
    ensures multiset(Filter(p, s))[x] == if p(x) then multiset(s)[x] else 0
    decreases |s|
  {
    if |s| > 0 {
      FilterMultiplicity(p, s[1..], x);
      assert s == [s[0]] + s[1..];
    }
  }

  /** Filtering a sequence whose elements all satisfy `p` changes nothing. */
  lemma {:induction false} FilterAll<T>(p: T -> bool, s: seq<T>)
    requires forall k :: 0 <= k < |s| ==> p(s[k])
    ensures Filter(p, s) == s
    decreases |s|
  {
    if |s| > 0 {
      FilterAll(p, s[1..]);
      assert [s[0]] + s[1..] == s;
    }
  }

  /** Filtering out at least one element shortens the sequence. */
  lemma {:induction false} FilterDrops<T>(p: T -> bool, s: seq<T>, i: nat)
    requires i < |s| && !p(s[i])
    ensures |Filter(p, s)| < |s|
    decreases |s|
  {
    if i > 0 {
      FilterDrops(p, s[1..], i - 1);
    }
  }

  /** Filtering distributes over concatenation. */
  lemma {:induction false} FilterAppend<T>(p: T -> bool, a: seq<T>, b: seq<T>)
    ensures Filter(p, a + b) == Filter(p, a) + Filter(p, b)
    decreases |a|
  {
    if |a| > 0 {
      FilterAppend(p, a[1..], b);
      assert (a + b)[1..] == a[1..] + b;
    } else {
      assert a + b == b;
    }
  }

  /** Filtering twice with the same predicate is filtering once. */
  lemma FilterIdempotent<T>(p: T -> bool, s: seq<T>)
    ensures Filter(p, Filter(p, s)) == Filter(p, s)
  {
    FilterAll(p, Filter(p, s));
  }

  /* ---------- splice ---------- */

  /** `s.splice(i, 1)`: the sequence with the element at `i` taken out. */
  function RemoveAt<T>(s: seq<T>, i: nat): (r: seq<T>)
    requires i < |s|
    ensures |r| == |s| - 1
    ensures forall k :: 0 <= k < i ==> r[k] == s[k]
    ensures forall k :: i <= k < |r| ==> r[k] == s[k + 1]
    ensures multiset(r) + multiset{s[i]} == multiset(s)
  {
    assert s == s[..i] + [s[i]] + s[i + 1..];
    s[..i] + s[i + 1..]
  }

  /** `s.splice(i, 0, x)`: the sequence with `x` inserted so that it lands at index `i`. */
  function InsertAt<T>(s: seq<T>, i: nat, x: T): (r: seq<T>)
    requires i <= |s|
    ensures |r| == |s| + 1
    ensures r[i] == x
    ensures forall k :: 0 <= k < i ==> r[k] == s[k]
    ensures forall k :: i < k < |r| ==> r[k] == s[k - 1]
    ensures multiset(r) == multiset(s) + multiset{x}
  {
    assert s == s[..i] + s[i..];
    s[..i] + [x] + s[i..]
  }

  /** Removing an element and putting it back at the same index is the identity. */
  lemma InsertRemove<T>(s: seq<T>, i: nat)
    requires i < |s|
    ensures InsertAt(RemoveAt(s, i), i, s[i]) == s
  {
  }
}

=== FILE: strings.dfy ===
/**
 * String helpers with the semantics of the JavaScript built-ins the application
 * relies on: `String.prototype.includes`, number-to-string rendering of a
 * non-negative integer, `Array.prototype.join`, `String.prototype.split` on a
 * one-character separator, and the `'+'`-to-space step of form decoding.
 */
module Strings {

  /* ---------- substring search (`includes`) ---------- */

  /** `t` occurs in `s` starting at index `i`. */
  ghost predicate OccursAt(s: string, t: string, i: int) {
    0 <= i && i + |t| <= |s| && s[i..i + |t|] == t
  }

  /** Reference meaning of "`s` contains `t`": some position where `t` occurs. */
  ghost predicate Contains(s: string, t: string) {
    exists i :: OccursAt(s, t, i)
  }

  predicate StartsWith(s: string, t: string) {
    |t| <= |s| && s[..|t|] == t
  }

  /** `s.includes(t)`, computed by trying every start position from the left. */
  predicate Includes(s: string, t: string)
    decreases |s|
  {
    if StartsWith(s, t) then true
    else if |s| == 0 then false
    else Includes(s[1..], t)
  }

  lemma OccursAtShift(s: string, t: string, i: nat)
    requires |s| > 0
    ensures OccursAt(s[1..], t, i) <==> OccursAt(s, t, i + 1)
  {
    if i + |t| <= |s| - 1 {
      assert s[1..][i..i + |t|] == s[i + 1..i + 1 + |t|];
    }
  }

  /** The search agrees with the positional definition, for every pair of strings. */
  lemma {:induction false} IncludesIsContains(s: string, t: string)
    ensures Includes(s, t) <==> Contains(s, t)
    decreases |s|
  {
    if StartsWith(s, t) {
      assert OccursAt(s, t, 0);
    } else {
      assert !OccursAt(s, t, 0);
      if |s| == 0 {
        assert forall i :: OccursAt(s, t, i) ==> i == 0;
      } else {
        IncludesIsContains(s[1..], t);
        forall i | OccursAt(s, t, i)
          ensures Contains(s[1..], t)
        {
          OccursAtShift(s, t, i - 1);
        }
        forall i: nat | OccursAt(s[1..], t, i)
          ensures Contains(s, t)
        {
          OccursAtShift(s, t, i);
        }
      }
    }
  }

  /** Every string contains the empty string, so an empty search matches everything. */
  lemma {:induction false} IncludesEmpty(s: string)
    ensures Includes(s, "")
  {
    assert s[..0] == "";
  }

  /* ---------- decimal rendering of a non-negative integer ---------- */

  predicate IsDigit(ch: char) {
    '0' <= ch <= '9'
  }

  predicate AllDigits(s: string) {
    forall i :: 0 <= i < |s| ==> IsDigit(s[i])
  }

  function DigitChar(d: nat): (ch: char)
    requires d < 10
    ensures IsDigit(ch)
  {
    ('0' as int + d) as char
  }

  function DigitValue(ch: char): (d: nat)
    requires IsDigit(ch)
    ensures d < 10
  {
    ch as int - '0' as int
  }

  /**
   * How JavaScript renders a non-negative integer below 10^21 in a template
   * literal: decimal, no leading zeros. (From 10^21 on JavaScript switches to
   * exponent notation, which this function does not model.)
   */
  function Decimal(n: nat): (s: string)
    ensures |s| > 0
    ensures AllDigits(s)
    decreases n
  {
    if n < 10 then [DigitChar(n)] else Decimal(n / 10) + [DigitChar(n % 10)]
  }

  /** The number a string of decimal digits denotes. */
  function DecimalValue(s: string): nat
    requires AllDigits(s)
    decreases |s|
  {
    if |s| == 0 then 0 else DecimalValue(s[..|s| - 1]) * 10 + DigitValue(s[|s| - 1])
  }

  /** Reading back a rendered number gives the number. */
  lemma {:induction false} DecimalRoundTrip(n: nat)
    ensures DecimalValue(Decimal(n)) == n
    decreases n
  {
    var s := Decimal(n);
    if n >= 10 {
      DecimalRoundTrip(n / 10);
      assert s[..|s| - 1] == Decimal(n / 10);
    }
  }

  lemma DecimalInjective(m: nat, n: nat)
    requires Decimal(m) == Decimal(n)
    ensures m == n
  {
    DecimalRoundTrip(m);
    DecimalRoundTrip(n);
  }

  /* ---------- `join` and `split` ---------- */

  /** `parts.join(sep)`: the empty list joins to "", one part joins to itself. */
  function Join(parts: seq<string>, sep: string): string
    decreases |parts|
  {
    if |parts| == 0 then ""
    else if |parts| == 1 then parts[0]
    else parts[0] + sep + Join(parts[1..], sep)
  }

  predicate Free(s: string, ch: char) {
    forall i :: 0 <= i < |s| ==> s[i] != ch
  }

  predicate AllFree(parts: seq<string>, ch: char) {
    forall k :: 0 <= k < |parts| ==> Free(parts[k], ch)
  }

  /**
   * `s.split(sep)` for a one-character separator: the pieces between
   * separators, so the empty string splits into one empty piece and a string
   * without the separator splits into itself.
   */
  function Split(s: string, sep: char): (parts: seq<string>)
    ensures |parts| > 0
    decreases |s|
  {
    if |s| == 0 then [""]
    else
      var rest := Split(s[1..], sep);
      if s[0] == sep then [""] + rest
      else [[s[0]] + rest[0]] + rest[1..]
  }

  /** No piece of a split contains the separator. */
  lemma {:induction false} SplitPiecesAreFree(s: string, sep: char)
    ensures AllFree(Split(s, sep), sep)
    decreases |s|
  {
    if |s| > 0 {
      SplitPiecesAreFree(s[1..], sep);
    }
  }

  /** Splitting and joining back with the same separator gives the original string. */
  lemma {:induction false} JoinSplit(s: string, sep: char)
    ensures Join(Split(s, sep), [sep]) == s
    decreases |s|
  {
    if |s| > 0 {
      var rest := Split(s[1..], sep);
      JoinSplit(s[1..], sep);
      if s[0] == sep {
        assert Split(s, sep) == [""] + rest;
        assert ([""] + rest)[1..] == rest;
      } else {
        var parts := Split(s, sep);
        assert parts[0] == [s[0]] + rest[0];
        if |rest| > 1 {
          assert parts[1..] == rest[1..];
          assert Join(rest, [sep]) == rest[0] + [sep] + Join(rest[1..], [sep]);
        }
        assert s == [s[0]] + s[1..];
      }
    }
  }

  /** A string without the separator splits into itself. */
  lemma {:induction false} SplitFree(p: string, sep: char)
    requires Free(p, sep)
    ensures Split(p, sep) == [p]
    decreases |p|
  {
    if |p| > 0 {
      SplitFree(p[1..], sep);
      assert [p[0]] + p[1..] == p;
    }
  }

  /** A separator-free piece followed by the separator splits off as one piece. */
  lemma {:induction false} SplitCons(p: string, sep: char, rest: string)
    requires Free(p, sep)
    ensures Split(p + [sep] + rest, sep) == [p] + Split(rest, sep)
    decreases |p|
  {
    if |p| == 0 {
      assert p + [sep] + rest == [sep] + rest;
      assert ([sep] + rest)[1..] == rest;
    } else {
      var s := p + [sep] + rest;
      assert s[1..] == p[1..] + [sep] + rest;
      SplitCons(p[1..], sep, rest);
      assert [p[0]] + p[1..] == p;
    }
  }

  /** Joining separator-free pieces and splitting again recovers the pieces, provided there is at least one. */
  lemma {:induction false} SplitJoin(parts: seq<string>, sep: char)
    requires |parts| > 0
    requires AllFree(parts, sep)
    ensures Split(Join(parts, [sep]), sep) == parts
    decreases |parts|
  {
    if |parts| == 1 {
      SplitFree(parts[0], sep);
    } else {
      SplitJoin(parts[1..], sep);
      SplitCons(parts[0], sep, Join(parts[1..], [sep]));
      assert [parts[0]] + parts[1..] == parts;
    }
  }

  /** Joining pieces that lack a character with a separator that lacks it gives a string that lacks it. */
  lemma {:induction false} JoinFree(parts: seq<string>, sep: string, ch: char)
    requires AllFree(parts, ch)
    requires Free(sep, ch)
    ensures Free(Join(parts, sep), ch)
    decreases |parts|
  {
    if |parts| > 1 {
      JoinFree(parts[1..], sep, ch);
    }
  }

  /** Joining two or more pieces with a one-character separator leaves that separator in the result. */
  lemma JoinHasSeparator(parts: seq<string>, sep: char)
    requires |parts| >= 2
    ensures !Free(Join(parts, [sep]), sep)
  {
    assert Join(parts, [sep])[|parts[0]|] == sep;
  }

  /* ---------- form decoding ---------- */

  /** The `'+'`-to-space step `URLSearchParams` applies to a query value. */
  function FormDecode(s: string): (r: string)
    ensures |r| == |s|
    ensures forall i :: 0 <= i < |s| ==> r[i] == (if s[i] == '+' then ' ' else s[i])
  {
    seq(|s|, i requires 0 <= i < |s| => if s[i] == '+' then ' ' else s[i])
  }

  /** Decoding a `'+'`-join of `'+'`-free pieces is the space-join of the same pieces. */
  lemma {:induction false} FormDecodeJoin(parts: seq<string>)
    requires AllFree(parts, '+')
    ensures FormDecode(Join(parts, "+")) == Join(parts, " ")
    decreases |parts|
  {
    if |parts| == 1 {
      assert FormDecode(parts[0]) == parts[0];
    } else if |parts| > 1 {
      FormDecodeJoin(parts[1..]);
      var a := parts[0];
      var b := Join(parts[1..], "+");
      assert FormDecode(a + "+" + b) == FormDecode(a) + " " + FormDecode(b);
      assert FormDecode(a) == a;
    }
  }

  /** Decoding leaves a string without `'+'` unchanged. */
  lemma FormDecodeFree(s: string)
    requires Free(s, '+')
    ensures FormDecode(s) == s
  {
  }
}
